=== FILE: README.md ===
# comparison_agent in Dafny

This project models the core of `comparison_agent`, a command-line tool that
compares options (such as "Python" and "JavaScript") with a language model and
a web search. `ComparisonWorkflow.run_comparison` runs four steps:

1. It renders a Jinja2 template into the user prompt: the options are numbered,
   and the constraints appear as an optional bulleted block.
2. It asks the language model for a search query and strips the answer.
3. It searches the web for that query, asking for depth "advanced" and at most
   5 hits, and aggregates the hits into a "Source i:" context.
4. It asks the language model for a report from the prompt and that context,
   and strips the answer.

The command line parses a comma-separated `--constraints` flag and requires at
least two options.

Everything except the two providers is a Dafny function. So rendering, the
message builders, the parser and the aggregation give the same output for the
same inputs.

The modules follow the program:

- `Wrappers`: `Option` and `Result`.
- `Text`: the Python string operations the code relies on, each as a function
  with a characterization:
  - `str.strip()` with Python's `isspace` set;
  - `str.split(sep)`;
  - `sep.join(parts)`;
  - `str(n)`;
  - a "whole line of a text" predicate.
- `Prompts`: the prompt constants and `str.format` over a pre-split template.
  It also builds the two message lists.
- `PromptTemplate`: the rendering of `USER_PROMPT_TEMPLATE` with Jinja2's
  default whitespace handling. Each `{% ... %}` tag line leaves its own line
  break. The rendered string is proved equal to the join of an explicit list of
  lines, and the properties are stated on those lines.
- `SearchContext`: `aggregate_search_context`. It includes a line view and a
  split-back round trip.
- `Workflow`: the steps and `run_comparison`. The language model and the search
  engine are total function parameters returning `Result`, so a raised
  exception becomes an `Err` that stops the pipeline.
- `Cli`: the option-count check and the constraint-flag parsing of `main`.

Solver limits shape some definitions:

- The solver cannot see the characters of a string literal longer than about
  fifty characters. So the two long fixed lines of the template that the proofs
  inspect, `Intro` and `RestrictLine`, are written as the concatenation of two
  shorter literals. The text they spell is unchanged.
- Concrete examples name their inputs through `requires x == "..."`. This keeps
  recursive string functions from being unfolded on literals.

## Model

| member | source | states |
|---|---|---|
| Text.Strip | comparison_workflow.py:46 | `str.strip()`: the result has no leading or trailing Python whitespace and is no longer than the input; the same function strips the report (line 81) and each constraint (line 151) |
| Text.StripCharacterization | comparison_workflow.py:46 | `Strip(s)` is the one string left after removing leading and trailing Python whitespace from `s`: equal to `r` exactly when `r` has no outer whitespace and `s` is `r` with only whitespace around it |
| Text.StripSpec | comparison_workflow.py:46 | the stripped text occurs in the input with only whitespace before and after it |
| Text.StripOfPadded | comparison_workflow.py:81 | stripping whitespace-padded stripped text returns that text |
| Text.StripStripped | comparison_workflow.py:46 | stripping text without outer whitespace leaves it unchanged (strip is idempotent on its own results) |
| Text.StripKeepsOut | comparison_workflow.py:151 | stripping never introduces a character, so a comma-free piece stays comma-free |
| Text.Split | comparison_workflow.py:151 | `str.split(sep)` yields at least one piece, no piece contains the separator, and joining the pieces with the separator gives back the input |
| Text.SplitJoin | comparison_workflow.py:151 | splitting the join of separator-free pieces gives back exactly those pieces |
| Text.SplitAppend | comparison_workflow.py:151 | splitting `a + sep + b` gives the pieces of `a` followed by the pieces of `b` |
| Text.JoinAppend | comparison_workflow.py:69 | `Join`, which models `sep.join(parts)`, applied to two non-empty lists puts exactly one separator between their joins |
| Text.JoinHasLine | comparison_workflow.py:69 | every break-free entry of a list of lines is a whole line of their `"\n".join` |
| Text.NatToString | comparison_workflow.py:63-67 | `str(n)` is a non-empty run of decimal digits with no leading zero unless `n` is 0 |
| Text.DecimalRoundTrip | comparison_workflow.py:63-67 | reading the digits of `str(n)` back as a decimal number gives `n` |
| Text.NatToStringInjective | comparison_workflow.py:63-67 | different numbers get different decimal strings, so source numbers are distinct |
| Prompts.Format | prompts.py:96 | `str.format` succeeds exactly when every field of the template has an argument; otherwise the error names a missing field of the template (Python's `KeyError`) |
| Prompts.FormatAppend | prompts.py:119-122 | formatting a concatenation of templates concatenates the formatted parts |
| Prompts.SearchQueryMessages | prompts.py:79-98 | two messages: the system message holding the fixed instruction, then the user message holding the fixed preamble, the query verbatim and the closing "\n\nOutput:" |
| Prompts.SearchQueryContentRoundTrip | prompts.py:11-24 | the user query can be read back from the user message and is the only query producing it |
| Prompts.ComparisonMessages | prompts.py:101-124 | two messages: the fixed system prompt, then "Original comparison request: " + request + "\n\nWeb search context:\n" + context |
| Prompts.ComparisonContentDetermines | prompts.py:31-34 | the comparison user message determines the context given the request, and the request given the context |
| PromptTemplate.RenderPrompt | prompts.py:37-76 | the rendered prompt always ends with the fixed instruction text |
| PromptTemplate.LoopLines | prompts.py:40-42 | the lines of a Jinja `for` over one body line between tag lines: a blank line then the body line, per item in order |
| PromptTemplate.LoopJoin | prompts.py:40-42 | `Loop`, the text Jinja renders for such a `for` (here and at prompts.py:48-50), written after joined lines and their break, is those lines joined together with the loop's lines, followed by a break |
| PromptTemplate.RenderPromptLines | prompts.py:37-76 | the rendered string is the `"\n"` join of the prompt's line list (intro, blank, `<options>`, the option lines, `</options>`, the optional constraints block, the instructions) |
| PromptTemplate.OptionsListed | prompts.py:39-43 | between `<options>` and `</options>` each option `i` appears as the line `i. option` after a blank line, in input order, numbered from 1; a blank line and then `</options>` follow the last option, and nothing else is in between |
| PromptTemplate.ConstraintsListed | prompts.py:45-52 | with a non-empty constraint list the "Restrict ..." line, `<constraints>`, each constraint as `- c` after a blank line in order, then a blank line and `</constraints>`, follow the options |
| PromptTemplate.ConstraintsBlockIff | prompts.py:45-52 | the "Restrict ..." line and both constraint tags are present exactly when the constraint list is present and non-empty; `None` and `[]` both omit them |
| PromptTemplate.InstructionsAlwaysLast | prompts.py:54-76 | for every input the prompt's lines end with the fixed instruction lines unchanged, including the closing "Constraints:" heading, which therefore does not signal a constraints block |
| PromptTemplate.RenderedOptionLine | prompts.py:41 | a break-free option `i` is a whole line `i. option` of the rendered text |
| PromptTemplate.RenderedBulletLine | prompts.py:49 | with constraints, a break-free constraint is a whole line `- c` of the rendered text |
| PromptTemplate.RenderedConstraintTags | prompts.py:47-51 | with constraints, `<constraints>` and `</constraints>` are whole lines of the rendered text |
| PromptTemplate.PythonJavaScriptExample | prompts.py:40-42 | rendering "Python", "JavaScript", with or without constraints, gives the lines "1. Python" and "2. JavaScript" |
| PromptTemplate.CostConstraintExample | prompts.py:45-52 | rendering with the constraint "Cost" gives a `<constraints>` line and the line "- Cost" |
| SearchContext.AggregateSearchContext | comparison_workflow.py:58-69 | no hits give the empty string, and any hit gives a non-empty context ending in a line break |
| SearchContext.SingleResultExample | comparison_workflow.py:58-69 | one hit with title A, content B, URL C gives exactly the `SourceBlock` f-string of line 67, "Source 1: A\nB\nURL: C\n" |
| SearchContext.AggregateSnoc | comparison_workflow.py:63-69 | one more hit appends a line break and the next-numbered block, leaving the earlier context unchanged |
| SearchContext.AggregatePrefix | comparison_workflow.py:63-69 | the context of the first `k` hits, a line break and block `k + 1` form a prefix of the whole context (blocks appear in input order) |
| SearchContext.MissingFieldsAsEmpty | comparison_workflow.py:64-66 | a missing title, content or url renders exactly like an empty one |
| SearchContext.AggregateAsLines | comparison_workflow.py:58-69 | for every list of hits, including none, the context is the join of four lines per hit: "Source i: title", content, "URL: url", blank |
| SearchContext.ContextLinesAt | comparison_workflow.py:67 | lines `4i` to `4i+3` of the context, the `SourceBlock` of hit `i`, hold its number and title, its content, its URL and a blank line |
| SearchContext.AggregateSplitsIntoLines | comparison_workflow.py:58-69 | with at least one hit and no field holding a line break, splitting the context at line breaks gives back exactly those lines, so every hit can be read back in order |
| Workflow.GenerateSearchQuery | comparison_workflow.py:36-46 | asks the model with the search-query messages at temperature 0; the answer is the model's reply stripped, and a model failure is passed on unchanged |
| Workflow.PerformWebSearch | comparison_workflow.py:48-56 | searches for the query with depth "advanced" and the given maximum; a reply without results gives no hits (`ResultsOf`, modelling `response.get("results", [])`), and a search failure is passed on |
| Workflow.MissingResultsEmptyContext | comparison_workflow.py:56 | a search reply without a "results" key gives no hits and an empty web context |
| Workflow.GenerateComparisonReport | comparison_workflow.py:71-81 | asks the model with the comparison messages at temperature 0.4; the report is the reply stripped, and a failure is passed on |
| Workflow.RunSteps | comparison_workflow.py:96-112 | on a rendered request, a result exactly when no step fails, and then one following the data flow (query from the request, search with that query, context from its hits, report from request and context); otherwise the first failing step's error |
| Workflow.RunComparison | comparison_workflow.py:83-112 | renders the options and constraints, then succeeds only with the result the data flow from that rendering determines, or fails with the first failing step's error |
| Workflow.FlowDeterminesResult | comparison_workflow.py:96-112 | any result that fits the data flow is the one the pipeline returns |
| Workflow.QueryFailureSkipsSearch | comparison_workflow.py:96-100 | if the query request fails, the run fails and the search engine has no influence on the outcome |
| Workflow.SuccessfulRunExample | comparison_workflow.py:83-112 | with a model answering "  python vs javascript performance\n" and a search returning one hit A/B/C, the run reports the stripped query, "Source 1: A\nB\nURL: C\n" and the stripped report |
| Workflow.SearchFailureExample | comparison_workflow.py:99-100 | a failing search makes the whole run fail with the search error |
| Cli.ValidateOptions | comparison_workflow.py:145-146 | fewer than two options is an error with the parser's message; otherwise the options pass unchanged |
| Cli.ParseConstraints | comparison_workflow.py:148-151 | an absent or empty flag gives `None`; otherwise a list whose every item is non-empty, stripped and comma-free |
| Cli.CleanItems | comparison_workflow.py:151 | the filtering comprehension `[c.strip() for c in pieces if c.strip()]`: every kept item is non-empty and stripped, and there are no more items than pieces |
| Cli.CleanItemsMembers | comparison_workflow.py:151 | an item is kept exactly when it is the non-empty strip of some comma-separated piece |
| Cli.ParseRoundTrip | comparison_workflow.py:148-151 | a non-empty list of clean constraints written with commas parses back to the same list, in order |
| Cli.ParseIdempotent | comparison_workflow.py:148-151 | for a non-empty parse, writing its items back with commas and parsing again gives the same result |
| Cli.ParseConcat | comparison_workflow.py:151 | a flag `a,b` parses to the items of `a` followed by the items of `b` |
| Cli.BlankFlagExample | comparison_workflow.py:149-151 | the flag " , ," gives an empty list rather than `None` |
| Cli.TwoConstraintsExample | comparison_workflow.py:151 | the flag "Performance, Learning curve" gives ["Performance", "Learning curve"] |

## Left out

- The clients are left out. The `aisuite` chat client and the Tavily search client become the function parameters `Completion` and `WebSearch`. The model id `huggingface:mistralai/Mistral-7B-Instruct-v0.2` goes with them, because the model treats the completion as an arbitrary function.
- `Completion` returns the text of the first choice directly. Extracting `response.choices[0].message.content` is not modelled. A `None` content, which would raise in `.strip()`, is not modelled either.
- The environment and `.env` loading, the validation of API keys at import time, `argparse` itself, and the printing in `main` are input and output, so they are left out.
- Search-result fields are modelled as strings or absent. The source accepts any JSON value, and non-string values are not modelled.
- Temperatures are real constants, 0.0 and 0.4. They are only passed through.
- `str.format` is modelled over templates already split into literal and field pieces. Parsing the braces of a format string is not modelled, and the two templates have no escaped braces.
- Jinja2 is modelled only for the one template it renders, with its default settings (`trim_blocks` and `keep_trailing_newline` off). Option and constraint values are inserted verbatim. Jinja2 does not autoescape by default.
- PromptTemplate.RenderPrompt: its own contract states only that the prompt ends with the instruction text. The full layout is stated by RenderPromptLines and the line lemmas, because string-level facts about long literals overwhelm the solver.
- PromptTemplate.ConstraintsBlockIff: it is stated on the line list. An option that itself contains a line break can smuggle a `<constraints>` line into the text, so the string-level iff does not hold for arbitrary options.
- Cli.ValidateOptions: it also returns the "at least two options" error for an empty option list. The program never reaches its own check with no options, because `argparse` with `nargs='+'` (comparison_workflow.py:132) rejects that command line first with its own message.
- Cli.ParseIdempotent: it is stated for a non-empty parse only. A flag that parses to `[]` is written back as the empty string, which parses to `None`.
- A search reply whose `results` entry is present but is `null` or not a list of objects is not modelled. The program raises on it while aggregating (comparison_workflow.py:62-63), and `SearchResponse` holds either no results or a list of records.
- Cli.ParseRoundTrip: it is stated for a non-empty list only. The empty list is written as the empty flag, which parses to `None` rather than to an empty list.
- SearchContext.AggregateSplitsIntoLines: it is stated for at least one hit only. With no hits the context is the empty string, which splits into one empty piece, while the context has no lines.
- PromptTemplate.CostConstraintExample: it proves that the rendering with the constraint "Cost" holds the lines `<constraints>` and "- Cost". It does not prove the other half of that scenario, that the rendering never contains the words "no constraints". The phrase appears nowhere in the template (prompts.py:37-76), and the template has no branch that writes it, but a proof would have to check every position of each fixed instruction line. The verifier can read the characters of a string literal only up to about fifty characters. Even with the longest lines cut into short pieces, that check would be far larger than the rest of the model.

=== FILE: cli.dfy ===
/** The argument handling of `main` in comparison_workflow.py that feeds the
    pipeline: the option count check and the parsing of the comma-separated
    `--constraints` flag. */
module Cli {
  import opened Wrappers
  import opened Text

  const TooFewOptions: string := "At least 2 options are required for comparison"

  /** At least two options are needed; otherwise the parser stops with an
      error. The options are passed on unchanged. */
  function ValidateOptions(options: seq<string>): (r: Result<seq<string>>)
    ensures r.Ok? <==> |options| >= 2
    ensures r.Ok? ==> r.value == options
    ensures r.Err? ==> r.error == TooFewOptions
  {
    if |options| < 2 then Err(TooFewOptions) else Ok(options)
  }

  /** A constraint as the parser keeps it: not empty, no surrounding
      whitespace, no comma. */
  predicate CleanItem(c: string) {
    c != [] && IsStripped(c) && ',' !in c
  }

  /** The stripped pieces whose strip is not empty, in order. */
  function CleanItems(pieces: seq<string>): (items: seq<string>)
    ensures forall k | 0 <= k < |items| :: items[k] != [] && IsStripped(items[k])
    ensures |items| <= |pieces|
  {
    if |pieces| == 0 then []
    else
      var rest := CleanItems(pieces[1..]);
      var head := Strip(pieces[0]);
      if head == [] then rest else [head] + rest
  }

  lemma {:induction false} CleanItemsAppend(a: seq<string>, b: seq<string>)
    ensures CleanItems(a + b) == CleanItems(a) + CleanItems(b)
    decreases |a|
  {
    if |a| > 0 {
      assert (a + b)[1..] == a[1..] + b;
      CleanItemsAppend(a[1..], b);
    } else {
      assert a + b == b;
    }
  }

  /** `[c.strip() for c in flag.split(',') if c.strip()]` behind
      `if args.constraints:` — an absent or empty flag gives no list at all. */
  function ParseConstraints(flag: Option<string>): (r: Option<seq<string>>)
    ensures r.None? <==> flag.None? || flag.value == []
    ensures r.Some? ==> forall k | 0 <= k < |r.value| :: CleanItem(r.value[k])
  {
    if flag.None? || flag.value == [] then None
    else
      var pieces := Split(flag.value, ',');
      CleanItemsKeepOut(pieces, ',');
      Some(CleanItems(pieces))
  }

  /** A character absent from every piece is absent from every item. */
  lemma {:induction false} CleanItemsKeepOut(pieces: seq<string>, x: char)
    requires forall k | 0 <= k < |pieces| :: x !in pieces[k]
    ensures forall k | 0 <= k < |CleanItems(pieces)| :: x !in CleanItems(pieces)[k]
    decreases |pieces|
  {
    if |pieces| > 0 {
      var rest := pieces[1..];
      assert forall k | 0 <= k < |rest| :: x !in rest[k] by {
        forall k | 0 <= k < |rest| ensures x !in rest[k] {
          assert rest[k] == pieces[k + 1];
        }
      }
      CleanItemsKeepOut(rest, x);
      StripKeepsOut(pieces[0], x);
    }
  }

  /** Some piece strips to `c`. */
  ghost predicate StripOfSome(pieces: seq<string>, c: string) {
    exists k | 0 <= k < |pieces| :: Strip(pieces[k]) == c
  }

  lemma StripOfSomeCons(pieces: seq<string>, c: string)
    requires |pieces| > 0
    ensures StripOfSome(pieces, c) <==> Strip(pieces[0]) == c || StripOfSome(pieces[1..], c)
  {
    var rest := pieces[1..];
    if StripOfSome(rest, c) {
      var k :| 0 <= k < |rest| && Strip(rest[k]) == c;
      assert pieces[k + 1] == rest[k];
    }
    if StripOfSome(pieces, c) && Strip(pieces[0]) != c {
      var k :| 0 <= k < |pieces| && Strip(pieces[k]) == c;
      assert rest[k - 1] == pieces[k];
    }
  }

  /** The items are exactly the non-empty strips of the pieces. */
  lemma {:induction false} CleanItemsMembers(pieces: seq<string>, c: string)
    ensures c in CleanItems(pieces) <==> c != [] && StripOfSome(pieces, c)
    decreases |pieces|
  {
    if |pieces| > 0 {
      CleanItemsMembers(pieces[1..], c);
      StripOfSomeCons(pieces, c);
    }
  }

  // ---------------------------------------------------------------------------
  // Properties
  // ---------------------------------------------------------------------------

  /** Clean constraints written with commas parse back to themselves. */
  lemma ParseRoundTrip(constraints: seq<string>)
    requires |constraints| > 0
    requires forall k | 0 <= k < |constraints| :: CleanItem(constraints[k])
    ensures ParseConstraints(Some(Join(constraints, ","))) == Some(constraints)
  {
    assert CleanItem(constraints[0]);
    JoinNonEmpty(constraints, ",");
    SplitJoin(constraints, ',');
    CleanItemsOfClean(constraints);
  }

  /** Pieces that are already non-empty and stripped are kept as they are. */
  lemma {:induction false} CleanItemsOfClean(items: seq<string>)
    requires forall k | 0 <= k < |items| :: items[k] != [] && IsStripped(items[k])
    ensures CleanItems(items) == items
    decreases |items|
  {
    if |items| > 0 {
      var head, rest := items[0], items[1..];
      StripStripped(head);
      CleanItemsOfClean(rest);
      assert items == [head] + rest;
    }
  }

  /** Parsing is idempotent: writing a non-empty parse back with commas and
      parsing again gives the same list. */
  lemma ParseIdempotent(flag: Option<string>)
    requires ParseConstraints(flag).Some? && |ParseConstraints(flag).value| > 0
    ensures ParseConstraints(Some(Join(ParseConstraints(flag).value, ","))) == ParseConstraints(flag)
  {
    ParseRoundTrip(ParseConstraints(flag).value);
  }

  /** Two flag texts joined by a comma parse to the two lists one after the
      other. */
  lemma ParseConcat(a: string, b: string)
    requires a != [] && b != []
    ensures ParseConstraints(Some(a + "," + b)).value
         == ParseConstraints(Some(a)).value + ParseConstraints(Some(b)).value
  {
    SplitAppend(a, b, ',');
    CleanItemsAppend(Split(a, ','), Split(b, ','));
  }

  /** Pieces that are all whitespace yield no items. */
  lemma {:induction false} CleanItemsBlank(pieces: seq<string>)
    requires forall k | 0 <= k < |pieces| :: AllSpace(pieces[k])
    ensures CleanItems(pieces) == []
    decreases |pieces|
  {
    if |pieces| > 0 {
      var rest := pieces[1..];
      assert forall k | 0 <= k < |rest| :: AllSpace(rest[k]) by {
        forall k | 0 <= k < |rest| ensures AllSpace(rest[k]) {
          assert rest[k] == pieces[k + 1];
        }
      }
      CleanItemsBlank(rest);
      assert pieces[0] == pieces[0] + [] + [];
      StripOfPadded(pieces[0], [], []);
    }
  }

  /** A flag holding only separators and whitespace yields an empty list, not
      `None`; the prompt template then leaves the constraints block out just
      as for `None`. */
  lemma BlankFlagExample(flag: string)
    requires flag == " , ,"
    ensures ParseConstraints(Some(flag)) == Some([])
  {
    var pieces := [" ", " ", ""];
    JoinThree(" ", " ", "", ",");
    assert Join(pieces, ",") == flag;
    SplitJoin(pieces, ',');
    CleanItemsBlank(pieces);
  }

  lemma SplitTwo(flag: string, a: string, b: string)
    requires flag == a + "," + b && ',' !in a && ',' !in b
    ensures Split(flag, ',') == [a, b]
  {
    JoinTwo(a, b, ",");
    SplitJoin([a, b], ',');
  }

  lemma CleanItemsTwo(a: string, b: string)
    requires Strip(a) != [] && Strip(b) != []
    ensures CleanItems([a, b]) == [Strip(a), Strip(b)]
  {
    assert [a, b][1..] == [b];
    assert [b][1..] == [];
  }

  /** A flag of two pieces with non-blank strips parses to the two strips. */
  lemma ParseTwo(flag: string, a: string, b: string)
    requires flag == a + "," + b && ',' !in a && ',' !in b
    requires Strip(a) != [] && Strip(b) != []
    ensures ParseConstraints(Some(flag)) == Some([Strip(a), Strip(b)])
  {
    SplitTwo(flag, a, b);
    CleanItemsTwo(a, b);
  }

  /** Two clean items, the second after a comma and some whitespace, parse
      back to the two items. */
  lemma ParseTwoPadded(a: string, pad: string, b: string)
    requires CleanItem(a) && CleanItem(b) && AllSpace(pad) && ',' !in pad
    ensures ParseConstraints(Some(a + "," + (pad + b))) == Some([a, b])
  {
    StripStripped(a);
    assert pad + b == pad + b + [];
    StripOfPadded(pad, b, []);
    ParseTwo(a + "," + (pad + b), a, pad + b);
  }

  /** The flag "Performance, Learning curve" gives two constraints; the
      space after the comma is stripped. */
  lemma TwoConstraintsExample(flag: string)
    requires flag == "Performance, Learning curve"
    ensures ParseConstraints(Some(flag)) == Some(["Performance", "Learning curve"])
  {
    var first, second := "Performance", "Learning curve";
    assert flag == first + "," + (" " + second);
    assert CleanItem(first) && CleanItem(second);
    ParseTwoPadded(first, " ", second);
  }
}

=== FILE: prompts.dfy ===
/** The fixed prompt texts and the two message builders of the workflow.
    Python's `str.format` is modelled over templates already split at their
    `{name}` replacement fields. */
module Prompts {
  import opened Wrappers

  datatype Role = System | User

  /** One role-tagged chat message, `{"role": ..., "content": ...}`. */
  datatype Message = Message(role: Role, content: string)

  // ---------------------------------------------------------------------------
  // str.format
  // ---------------------------------------------------------------------------

  /** A piece of a format string: literal text, or a `{name}` field. */
  datatype Piece = Lit(text: string) | Field(name: string)

  /** Every field of `template` has a keyword argument. */
  predicate Bound(template: seq<Piece>, args: map<string, string>) {
    forall k | 0 <= k < |template| :: template[k].Field? ==> template[k].name in args
  }

  /** `template.format(**args)`: each field is replaced by its argument, once;
      the inserted text is not scanned again. A field without an argument
      raises `KeyError` naming the first such field. */
  function Format(template: seq<Piece>, args: map<string, string>): (r: Result<string>)
    ensures r.Ok? <==> Bound(template, args)
    ensures r.Err? ==> exists k | 0 <= k < |template| :: template[k] == Field(r.error) && r.error !in args
  {
    if |template| == 0 then Ok([])
    else if template[0].Field? && template[0].name !in args then Err(template[0].name)
    else
      var head := PieceText(template[0], args);
      assert forall k | 1 <= k < |template| :: template[k] == template[1..][k - 1];
      match Format(template[1..], args)
      case Err(name) => Err(name)
      case Ok(tail) => Ok(head + tail)
  }

  /** The text one piece contributes. */
  function PieceText(p: Piece, args: map<string, string>): string
    requires p.Field? ==> p.name in args
  {
    match p
    case Lit(text) => text
    case Field(name) => args[name]
  }

  /** Formatting distributes over concatenation of templates. */
  lemma {:induction false} FormatAppend(t1: seq<Piece>, t2: seq<Piece>, args: map<string, string>)
    requires Bound(t1, args) && Bound(t2, args)
    ensures Bound(t1 + t2, args)
    ensures Format(t1 + t2, args) == Ok(Format(t1, args).value + Format(t2, args).value)
  {
    assert forall k | 0 <= k < |t1 + t2| :: (t1 + t2)[k] == if k < |t1| then t1[k] else t2[k - |t1|];
    if |t1| == 0 {
      assert t1 + t2 == t2;
      assert [] + Format(t2, args).value == Format(t2, args).value;
    } else {
      assert (t1 + t2)[1..] == t1[1..] + t2;
      assert forall k | 0 <= k < |t1[1..]| :: t1[1..][k] == t1[k + 1];
      FormatAppend(t1[1..], t2, args);
      var h := PieceText(t1[0], args);
      assert (t1 + t2)[0] == t1[0];
      assert Format(t1, args) == Ok(h + Format(t1[1..], args).value);
      assert Format(t1 + t2, args) == Ok(h + Format(t1[1..] + t2, args).value);
      assert h + (Format(t1[1..], args).value + Format(t2, args).value)
          == (h + Format(t1[1..], args).value) + Format(t2, args).value;
    }
  }

  /** A one-piece template yields its literal text or its argument. */
  lemma FormatPiece(p: Piece, args: map<string, string>)
    requires p.Field? ==> p.name in args
    ensures Format([p], args) == Ok(PieceText(p, args))
  {
    assert [p][1..] == [];
    assert PieceText(p, args) + [] == PieceText(p, args);
  }

  // ---------------------------------------------------------------------------
  // Prompt constants
  // ---------------------------------------------------------------------------

  const SearchQuerySystemPrompt: string :=
    "You generate concise, effective web search queries. Return ONLY a SINGLE search query, no explanations."

  /** The text of the search-query user template before its `{user_query}` field. */
  const SearchQueryPreamble: string :=
    "You are generating a web search query for an information retrieval system.\n"
    + "\n"
    + "First analyse the user query to find essential keywords to answer it.\n"
    + "Once you have analyzed it, produce:\n"
    + "- ONE concise web search query\n"
    + "- Maximum 8\U{2013}12 words\n"
    + "- Include only essential keywords\n"
    + "- No explanations, no punctuation beyond spaces\n"
    + "- Do not include questions or full sentences\n"
    + "\n"
    + "User query:\n"

  /** The text of the search-query user template after its field. */
  const SearchQueryTrailer: string := "\n\nOutput:"

  const SearchQueryUserTemplate: seq<Piece> :=
    [Lit(SearchQueryPreamble), Field("user_query"), Lit(SearchQueryTrailer)]

  const ComparisonSystemPrompt: string :=
    "You are an expert assistant helping users to choose between multiple options by providing detailed explanations and reasoning for every option.\n"
    + "Although you are quite knowledgable in various topics, but still to help you give better comparison, some information from web relevent to user query is also provided.\n"
    + "Use the web context provided along with your own understanding about the topic to answer the user query."

  const ComparisonRequestLabel: string := "Original comparison request: "
  const ContextLabel: string := "\n\nWeb search context:\n"

  const ComparisonUserTemplate: seq<Piece> :=
    [Lit(ComparisonRequestLabel), Field("user_query"), Lit(ContextLabel), Field("search_context")]

  // ---------------------------------------------------------------------------
  // Message builders
  // ---------------------------------------------------------------------------

  /** `get_search_query_messages`: the system instruction, then the user query
      substituted verbatim into the search-query template. */
  function SearchQueryMessages(userQuery: string): (msgs: seq<Message>)
    ensures |msgs| == 2
    ensures msgs[0] == Message(System, SearchQuerySystemPrompt)
    ensures msgs[1] == Message(User, SearchQueryPreamble + userQuery + SearchQueryTrailer)
  {
    var args := map["user_query" := userQuery];
    assert Bound(SearchQueryUserTemplate, args);
    FormatPiece(Lit(SearchQueryPreamble), args);
    FormatPiece(Field("user_query"), args);
    FormatPiece(Lit(SearchQueryTrailer), args);
    FormatAppend([Lit(SearchQueryPreamble)], [Field("user_query")], args);
    FormatAppend([Lit(SearchQueryPreamble), Field("user_query")], [Lit(SearchQueryTrailer)], args);
    assert [Lit(SearchQueryPreamble)] + [Field("user_query")] == [Lit(SearchQueryPreamble), Field("user_query")];
    assert [Lit(SearchQueryPreamble), Field("user_query")] + [Lit(SearchQueryTrailer)] == SearchQueryUserTemplate;
    [Message(System, SearchQuerySystemPrompt),
     Message(User, Format(SearchQueryUserTemplate, args).value)]
  }

  /** `get_comparison_messages`: the system instruction, then the request and
      the aggregated web context substituted verbatim. */
  function ComparisonMessages(userQuery: string, searchContext: string): (msgs: seq<Message>)
    ensures |msgs| == 2
    ensures msgs[0] == Message(System, ComparisonSystemPrompt)
    ensures msgs[1] == Message(User, ComparisonRequestLabel + userQuery + ContextLabel + searchContext)
  {
    var args := map["user_query" := userQuery, "search_context" := searchContext];
    assert Bound(ComparisonUserTemplate, args);
    FormatPiece(Lit(ComparisonRequestLabel), args);
    FormatPiece(Field("user_query"), args);
    FormatPiece(Lit(ContextLabel), args);
    FormatPiece(Field("search_context"), args);
    FormatAppend([Lit(ComparisonRequestLabel)], [Field("user_query")], args);
    FormatAppend([Lit(ComparisonRequestLabel), Field("user_query")], [Lit(ContextLabel)], args);
    FormatAppend([Lit(ComparisonRequestLabel), Field("user_query"), Lit(ContextLabel)], [Field("search_context")], args);
    assert [Lit(ComparisonRequestLabel)] + [Field("user_query")] == [Lit(ComparisonRequestLabel), Field("user_query")];
    assert [Lit(ComparisonRequestLabel), Field("user_query")] + [Lit(ContextLabel)]
        == [Lit(ComparisonRequestLabel), Field("user_query"), Lit(ContextLabel)];
    assert [Lit(ComparisonRequestLabel), Field("user_query"), Lit(ContextLabel)] + [Field("search_context")]
        == ComparisonUserTemplate;
    [Message(System, ComparisonSystemPrompt),
     Message(User, Format(ComparisonUserTemplate, args).value)]
  }

  /** Reads the user query back out of a search-query user message. */
  function UserQueryOf(content: string): (q: Option<string>)
  {
    var pre, post := |SearchQueryPreamble|, |SearchQueryTrailer|;
    if |content| >= pre + post && content[..pre] == SearchQueryPreamble
       && content[|content| - post..] == SearchQueryTrailer
    then Some(content[pre..|content| - post])
    else None
  }

  /** The search-query substitution loses nothing and adds nothing: a user
      message is built from exactly one query, which can be read back, even
      when the query itself holds braces such as `{user_query}`. */
  lemma SearchQueryContentRoundTrip(userQuery: string, content: string)
    ensures SearchQueryMessages(userQuery)[1].content == content <==> UserQueryOf(content) == Some(userQuery)
  {
    var pre, post := |SearchQueryPreamble|, |SearchQueryTrailer|;
    var built := SearchQueryPreamble + userQuery + SearchQueryTrailer;
    assert built[..pre] == SearchQueryPreamble;
    assert built[|built| - post..] == SearchQueryTrailer;
    assert built[pre..|built| - post] == userQuery;
    if UserQueryOf(content) == Some(userQuery) {
      assert content == content[..pre] + content[pre..|content| - post] + content[|content| - post..];
    }
  }

  /** Two comparison requests with the same context give different user
      messages, and so do two contexts for the same request. */
  lemma ComparisonContentDetermines(u1: string, c1: string, u2: string, c2: string)
    requires ComparisonMessages(u1, c1)[1] == ComparisonMessages(u2, c2)[1]
    ensures u1 == u2 ==> c1 == c2
    ensures c1 == c2 ==> u1 == u2
  {
    var m1 := ComparisonRequestLabel + u1 + ContextLabel + c1;
    var m2 := ComparisonRequestLabel + u2 + ContextLabel + c2;
    var k := |ComparisonRequestLabel + u1 + ContextLabel|;
    if u1 == u2 {
      assert m1[k..] == c1 && m2[k..] == c2;
    }
    if c1 == c2 {
      var n := |ComparisonRequestLabel|;
      assert m1[n..|m1| - |ContextLabel + c1|] == u1;
      assert m2[n..|m2| - |ContextLabel + c2|] == u2;
    }
  }
}

=== FILE: search.dfy ===
/** The textual search context built from web-search hits
    (`aggregate_search_context` in comparison_workflow.py). */
module SearchContext {
  import opened Wrappers
  import opened Text

  /** One web-search hit. A key the search provider left out is `None`. */
  datatype SearchRecord = SearchRecord(title: Option<string>, content: Option<string>, url: Option<string>)

  /** `result.get(key, "")`: an absent key reads as the empty string. */
  function FieldText(field: Option<string>): string {
    if field.Some? then field.value else ""
  }

  /** `Source <index>: `, the head of the block for hit number `index`. */
  function SourceHeader(index: nat): string {
    "Source " + NatToString(index) + ": "
  }

  /** The block for hit number `index` (counting from 1): header and title,
      content, URL, each ended by a line break. */
  function SourceBlock(index: nat, r: SearchRecord): string {
    SourceHeader(index) + FieldText(r.title) + "\n" + FieldText(r.content) + "\nURL: " + FieldText(r.url) + "\n"
  }

  function SourceBlocks(results: seq<SearchRecord>): seq<string> {
    seq(|results|, i requires 0 <= i < |results| => SourceBlock(i + 1, results[i]))
  }

  /** The blocks of all hits, numbered from 1 in input order and separated by
      one extra line break. */
  function AggregateSearchContext(results: seq<SearchRecord>): (context: string)
    ensures context == [] <==> |results| == 0
    ensures |results| > 0 ==> context[|context| - 1] == '\n'
  {
    var blocks := SourceBlocks(results);
    if |results| == 0 then Join(blocks, "\n")
    else
      JoinSplitLast(blocks, "\n");
      Join(blocks, "\n")
  }

  // ---------------------------------------------------------------------------
  // Block structure
  // ---------------------------------------------------------------------------

  /** Appending one more hit appends one more block, numbered after the
      others, behind a separating line break. */
  lemma AggregateSnoc(results: seq<SearchRecord>, r: SearchRecord)
    requires |results| > 0
    ensures AggregateSearchContext(results + [r])
         == AggregateSearchContext(results) + "\n" + SourceBlock(|results| + 1, r)
  {
    var all := results + [r];
    assert SourceBlocks(all) == SourceBlocks(results) + [SourceBlock(|results| + 1, r)];
    JoinAppend(SourceBlocks(results), [SourceBlock(|results| + 1, r)], "\n");
  }

  /** A single hit with title A, content B and URL C gives
      "Source 1: A\nB\nURL: C\n". */
  lemma SingleResultExample()
    ensures AggregateSearchContext([SearchRecord(Some("A"), Some("B"), Some("C"))])
         == "Source 1: A\nB\nURL: C\n"
  {
    assert NatToString(1) == "1";
  }

  /** The context of the first `k` hits is a prefix of the whole context,
      followed by a line break and block `k + 1`. */
  lemma {:induction false} AggregatePrefix(results: seq<SearchRecord>, k: nat)
    requires 0 < k < |results|
    ensures AggregateSearchContext(results[..k]) + "\n" + SourceBlock(k + 1, results[k])
         <= AggregateSearchContext(results)
    decreases |results|
  {
    var n := |results|;
    var front := results[..n - 1];
    AggregateSnoc(front, results[n - 1]);
    assert front + [results[n - 1]] == results;
    if k == n - 1 {
      assert results[..k] == front;
    } else {
      assert front[..k] == results[..k] && front[k] == results[k];
      AggregatePrefix(front, k);
    }
  }

  /** A missing key renders exactly like an empty value. */
  function WithDefaults(r: SearchRecord): SearchRecord {
    SearchRecord(Some(FieldText(r.title)), Some(FieldText(r.content)), Some(FieldText(r.url)))
  }

  lemma MissingFieldsAsEmpty(results: seq<SearchRecord>)
    ensures AggregateSearchContext(seq(|results|, i requires 0 <= i < |results| => WithDefaults(results[i])))
         == AggregateSearchContext(results)
  {
    var filled := seq(|results|, i requires 0 <= i < |results| => WithDefaults(results[i]));
    assert SourceBlocks(filled) == SourceBlocks(results);
  }

  // ---------------------------------------------------------------------------
  // Line view: every hit contributes four lines
  // ---------------------------------------------------------------------------

  /** The four lines of the block for hit `index`: header with title, content,
      `URL: url`, and the empty line left by the closing break. */
  function BlockLines(index: nat, r: SearchRecord): seq<string> {
    [SourceHeader(index) + FieldText(r.title), FieldText(r.content), "URL: " + FieldText(r.url), ""]
  }

  /** The lines of the whole context: the block lines of every hit in order. */
  function ContextLines(results: seq<SearchRecord>): (lines: seq<string>)
    ensures |lines| == 4 * |results|
  {
    if |results| == 0 then []
    else ContextLines(results[..|results| - 1]) + BlockLines(|results|, results[|results| - 1])
  }

  lemma BlockAsLines(index: nat, r: SearchRecord)
    ensures SourceBlock(index, r) == Join(BlockLines(index, r), "\n")
  {
    var lines := BlockLines(index, r);
    assert lines[1..] == [lines[1], lines[2], lines[3]];
    JoinThree(lines[1], lines[2], lines[3], "\n");
  }

  /** The context is the join of its lines. */
  lemma {:induction false} AggregateAsLines(results: seq<SearchRecord>)
    ensures AggregateSearchContext(results) == Join(ContextLines(results), "\n")
    decreases |results|
  {
    var n := |results|;
    if n == 1 {
      var last := results[0];
      BlockAsLines(1, last);
      assert ContextLines(results[..0]) == [];
      assert ContextLines(results) == BlockLines(1, last);
      assert SourceBlocks(results) == [SourceBlock(1, last)];
    } else if n > 1 {
      var front, last := results[..n - 1], results[n - 1];
      BlockAsLines(n, last);
      AggregateAsLines(front);
      AggregateSnoc(front, last);
      assert front + [last] == results;
      JoinAppend(ContextLines(front), BlockLines(n, last), "\n");
    }
  }

  /** Lines `4i` to `4i + 3` carry hit `i`: its numbered header and title, its
      content, its URL, and an empty line. */
  lemma {:induction false} ContextLinesAt(results: seq<SearchRecord>, i: nat)
    requires i < |results|
    ensures ContextLines(results)[4 * i] == SourceHeader(i + 1) + FieldText(results[i].title)
    ensures ContextLines(results)[4 * i + 1] == FieldText(results[i].content)
    ensures ContextLines(results)[4 * i + 2] == "URL: " + FieldText(results[i].url)
    ensures ContextLines(results)[4 * i + 3] == ""
    decreases |results|
  {
    var n := |results|;
    var front := results[..n - 1];
    if i < n - 1 {
      ContextLinesAt(front, i);
      assert front[i] == results[i];
    }
  }

  /** Fields free of line breaks. */
  predicate SingleLine(r: SearchRecord) {
    '\n' !in FieldText(r.title) && '\n' !in FieldText(r.content) && '\n' !in FieldText(r.url)
  }

  lemma {:induction false} ContextLinesSingle(results: seq<SearchRecord>)
    requires forall r <- results :: SingleLine(r)
    ensures forall l <- ContextLines(results) :: '\n' !in l
    decreases |results|
  {
    var n := |results|;
    if n > 0 {
      var last := results[n - 1];
      assert SingleLine(last);
      ContextLinesSingle(results[..n - 1]);
      NatToStringSingleLine(n);
      assert '\n' !in "Source " && '\n' !in ": " && '\n' !in "URL: ";
      assert '\n' !in SourceHeader(n);
    }
  }

  /** When no field holds a line break, splitting the context at line breaks
      gives back exactly its lines, so every hit's title, content and URL can
      be read back from it in order. */
  lemma AggregateSplitsIntoLines(results: seq<SearchRecord>)
    requires |results| > 0
    requires forall r <- results :: SingleLine(r)
    ensures Split(AggregateSearchContext(results), '\n') == ContextLines(results)
  {
    AggregateAsLines(results);
    ContextLinesSingle(results);
    SplitJoin(ContextLines(results), '\n');
  }
}

=== FILE: template.dfy ===
/** Rendering of the user prompt template (a Jinja template with default
    settings: every `{% ... %}` tag line renders as nothing but keeps its own
    line break). `RenderPrompt` follows the template text piece by piece;
    `PromptLines` is the same prompt seen as a list of lines. */
module PromptTemplate {
  import opened Wrappers
  import opened Text

  // The two long single lines are written in two parts so that the verifier
  // can read their first characters.
  const Intro: string := "Compare the following options " + "in a clear and neutral way."
  const OptionsOpen: string := "<options>"
  const OptionsClose: string := "</options>"
  const RestrictLine: string := "Restrict the comparison " + "to the following dimensions only:"
  const ConstraintsOpen: string := "<constraints>"
  const ConstraintsClose: string := "</constraints>"

  /** The fixed instructions that close every prompt, one entry per line. */
  const InstructionLines: seq<string> := [
    "Instructions:",
    "- Compare options only along the specified dimensions if provided",
    "- Otherwise, choose relevant comparison dimensions",
    "- Explain key differences and trade-offs",
    "- Use clear section headings by dimension",
    "- Cover all options consistently",
    "- Keep corresponding dimension in same units",
    "",
    "Output:",
    "1. Detailed comparison by specified dimension",
    "2. Final summary MUST include:",
    "    - Aggregated pros and cons.",
    "    - A concise comparison table containing essential attributes.",
    "",
    "Formatting guidelines:",
    "- Do NOT use markdown emphasis such as **bold**, italics, or inline styling",
    "- Use clear section titles on their own lines (no special characters)",
    "- Use bullet points only for lists",
    "- Keep formatting simple and readable",
    "",
    "",
    "Constraints:",
    "- Do not recommend a final option"
  ]

  /** The instruction lines as one text, as they stand in the template. */
  const InstructionText: string := Join(InstructionLines, "\n")

  /** Jinja's truth test on `constraints`: `None` and the empty list are both false. */
  predicate HasConstraints(constraints: Option<seq<string>>) {
    constraints.Some? && |constraints.value| > 0
  }

  /** `{{ loop.index }}. {{ opt }}` */
  function OptionLine(index: nat, option: string): string {
    NatToString(index) + ". " + option
  }

  /** `- {{ c }}` */
  function BulletLine(constraint: string): string {
    "- " + constraint
  }

  function Enumerated(options: seq<string>): seq<string> {
    seq(|options|, k requires 0 <= k < |options| => OptionLine(k + 1, options[k]))
  }

  function Bulleted(constraints: seq<string>): seq<string> {
    seq(|constraints|, k requires 0 <= k < |constraints| => BulletLine(constraints[k]))
  }

  /** A `{% for %}` loop whose body is one line between two tag lines: each
      iteration renders the break left by the opening tag, then its line and
      that line's break. */
  function Loop(body: seq<string>): string {
    if |body| == 0 then [] else "\n" + body[0] + "\n" + Loop(body[1..])
  }

  /** The opening sentence and the `<options>` block, with the blank line
      that follows it. */
  function OptionsSection(options: seq<string>): string {
    Intro + "\n\n" + OptionsOpen + "\n"
    + Loop(Enumerated(options))
    + "\n" + OptionsClose + "\n\n"
  }

  /** The `{% if constraints %}` block: empty when the test is false. */
  function ConstraintsSection(constraints: Option<seq<string>>): string {
    if HasConstraints(constraints) then
      "\n" + RestrictLine + "\n" + ConstraintsOpen + "\n"
      + Loop(Bulleted(constraints.value))
      + "\n" + ConstraintsClose + "\n"
    else []
  }

  /** `Template(USER_PROMPT_TEMPLATE).render(options=..., constraints=...)`. */
  function RenderPrompt(options: seq<string>, constraints: Option<seq<string>>): (prompt: string)
    ensures |prompt| >= |InstructionText| && prompt[|prompt| - |InstructionText|..] == InstructionText
  {
    OptionsSection(options) + ConstraintsSection(constraints) + "\n\n" + InstructionText
  }

  // ---------------------------------------------------------------------------
  // The same prompt as lines
  // ---------------------------------------------------------------------------

  /** The lines a one-line-body loop produces: a blank line before each item. */
  function LoopLines(body: seq<string>): (lines: seq<string>)
    ensures |lines| == 2 * |body|
    ensures forall k | 0 <= k < |body| :: lines[2 * k] == "" && lines[2 * k + 1] == body[k]
  {
    if |body| == 0 then []
    else
      var rest := LoopLines(body[1..]);
      var lines := ["", body[0]] + rest;
      assert forall k | 0 <= k < |body| :: lines[2 * k] == "" && lines[2 * k + 1] == body[k] by {
        forall k | 0 <= k < |body| ensures lines[2 * k] == "" && lines[2 * k + 1] == body[k] {
          if k > 0 {
            assert lines[2 * k] == rest[2 * (k - 1)];
            assert lines[2 * k + 1] == rest[2 * (k - 1) + 1];
            assert body[k] == body[1..][k - 1];
          }
        }
      }
      lines
  }

  /** The lines between `</options>` and the instructions. Without constraints
      only the blank line of the `{% if %}` tag's break survives. */
  function ConstraintSectionLines(constraints: Option<seq<string>>): seq<string> {
    if HasConstraints(constraints) then
      ["", RestrictLine, ConstraintsOpen] + LoopLines(Bulleted(constraints.value)) + ["", ConstraintsClose, ""]
    else
      [""]
  }

  /** The opening sentence and the `<options>` block as lines. */
  function UpperLines(options: seq<string>): seq<string> {
    [Intro, "", OptionsOpen] + LoopLines(Enumerated(options)) + ["", OptionsClose, ""]
  }

  /** The rendered prompt as lines: the options block, the constraints
      section, then a blank line and the fixed instructions. */
  function PromptLines(options: seq<string>, constraints: Option<seq<string>>): seq<string> {
    UpperLines(options) + ConstraintSectionLines(constraints) + ([""] + InstructionLines)
  }

  /** A loop appended after some lines ends with a line break, like the lines
      it adds joined onto them. */
  lemma {:induction false} LoopJoin(lines: seq<string>, body: seq<string>)
    requires |lines| > 0
    ensures Join(lines, "\n") + "\n" + Loop(body) == Join(lines + LoopLines(body), "\n") + "\n"
    decreases |body|
  {
    if |body| > 0 {
      var next := lines + ["", body[0]];
      JoinAppend(lines, ["", body[0]], "\n");
      JoinTwo("", body[0], "\n");
      LoopJoin(next, body[1..]);
      assert next + LoopLines(body[1..]) == lines + LoopLines(body);
    } else {
      assert lines + LoopLines(body) == lines;
    }
  }

  /** Three lines, a loop, and a closing line between blank lines, written
      out with their breaks, are those lines joined by breaks. */
  lemma {:induction false} TaggedBlockLines(a: string, b: string, c: string, body: seq<string>, close: string)
    ensures a + "\n" + b + "\n" + c + "\n" + Loop(body) + "\n" + close + "\n"
         == Join([a, b, c] + LoopLines(body) + ["", close, ""], "\n")
  {
    var head := [a, b, c];
    var lines := head + LoopLines(body);
    var closing := "\n" + close + "\n";
    JoinThree(a, b, c, "\n");
    LoopJoin(head, body);
    JoinThree("", close, "", "\n");
    assert Join(["", close, ""], "\n") == closing;
    JoinAppend(lines, ["", close, ""], "\n");
    assert Join(lines + ["", close, ""], "\n") == Join(lines, "\n") + "\n" + closing;
    assert a + "\n" + b + "\n" + c + "\n" + Loop(body) == Join(lines, "\n") + "\n";
    assert a + "\n" + b + "\n" + c + "\n" + Loop(body) + "\n" + close + "\n"
        == (a + "\n" + b + "\n" + c + "\n" + Loop(body)) + closing;
  }

  /** `TaggedBlockLines` with a blank second line, written as the options block is. */
  lemma TaggedBlockBlankSecond(a: string, c: string, body: seq<string>, close: string)
    ensures a + "\n\n" + c + "\n" + Loop(body) + "\n" + close + "\n\n"
         == Join([a, "", c] + LoopLines(body) + ["", close, ""], "\n") + "\n"
  {
    TaggedBlockLines(a, "", c, body, close);
    var tail := c + "\n" + Loop(body) + "\n" + close;
    assert a + "\n\n" + c + "\n" + Loop(body) + "\n" + close + "\n\n"
        == a + "\n\n" + tail + "\n\n";
    assert a + "\n" + "" + "\n" + c + "\n" + Loop(body) + "\n" + close + "\n"
        == a + "\n\n" + tail + "\n";
  }

  lemma OptionsSectionLines(options: seq<string>)
    ensures OptionsSection(options) == Join(UpperLines(options), "\n") + "\n"
  {
    TaggedBlockBlankSecond(Intro, OptionsOpen, Enumerated(options), OptionsClose);
  }

  lemma TaggedBlockBlankFirst(b: string, c: string, body: seq<string>, close: string)
    ensures "\n" + b + "\n" + c + "\n" + Loop(body) + "\n" + close + "\n"
         == Join(["", b, c] + LoopLines(body) + ["", close, ""], "\n")
  {
    TaggedBlockLines("", b, c, body, close);
    assert "" + "\n" + b == "\n" + b;
  }

  lemma ConstraintsSectionLines(constraints: Option<seq<string>>)
    ensures ConstraintsSection(constraints) == Join(ConstraintSectionLines(constraints), "\n")
  {
    if HasConstraints(constraints) {
      TaggedBlockBlankFirst(RestrictLine, ConstraintsOpen, Bulleted(constraints.value), ConstraintsClose);
    }
  }

  /** Three non-empty groups of lines, the last one after a blank line. */
  lemma {:induction false} AssembleLines(upper: seq<string>, section: seq<string>, rest: seq<string>)
    requires |upper| > 0 && |section| > 0 && |rest| > 0
    ensures Join(upper, "\n") + "\n" + Join(section, "\n") + "\n\n" + Join(rest, "\n")
         == Join(upper + section + ([""] + rest), "\n")
  {
    var tail := [""] + rest;
    var ju, js, jr := Join(upper, "\n"), Join(section, "\n"), Join(rest, "\n");
    assert Join(section + tail, "\n") == js + "\n\n" + jr by {
      TailLines(rest);
      JoinAppend(section, tail, "\n");
      assert "\n\n" == "\n" + "\n";
    }
    assert Join(upper + section + tail, "\n") == ju + "\n" + Join(section + tail, "\n") by {
      JoinAppend(upper, section + tail, "\n");
      assert upper + section + tail == upper + (section + tail);
    }
  }

  lemma TailLines(rest: seq<string>)
    requires |rest| > 0
    ensures Join([""] + rest, "\n") == "\n" + Join(rest, "\n")
  {
    assert Join([""], "\n") == "";
    JoinAppend([""], rest, "\n");
  }

  /** The rendered prompt is its lines joined by line breaks. */
  lemma RenderPromptLines(options: seq<string>, constraints: Option<seq<string>>)
    ensures RenderPrompt(options, constraints) == Join(PromptLines(options, constraints), "\n")
  {
    var upper := UpperLines(options);
    var section := ConstraintSectionLines(constraints);
    OptionsSectionLines(options);
    ConstraintsSectionLines(constraints);
    AssembleLines(upper, section, InstructionLines);
    assert RenderPrompt(options, constraints)
        == Join(upper, "\n") + "\n" + Join(section, "\n") + "\n\n" + InstructionText;
  }

  // ---------------------------------------------------------------------------
  // Properties of the rendered lines
  // ---------------------------------------------------------------------------

  lemma MiddleIndex<T>(a: seq<T>, b: seq<T>, c: seq<T>, k: nat)
    requires k < |b|
    ensures (a + b + c)[|a| + k] == b[k]
  {
  }

  /** Line `2` opens `<options>`; after it each option `i` (from 1) has a blank
      line and then the line `i. option`, in input order; a blank line and
      `</options>` follow the last one. No other line lies between the tags. */
  lemma {:induction false} OptionsListed(options: seq<string>, constraints: Option<seq<string>>)
    ensures |PromptLines(options, constraints)| > 4 + 2 * |options|
    ensures PromptLines(options, constraints)[2] == OptionsOpen
    ensures PromptLines(options, constraints)[3 + 2 * |options|] == ""
    ensures PromptLines(options, constraints)[4 + 2 * |options|] == OptionsClose
    ensures forall i | 0 <= i < |options| ::
      && PromptLines(options, constraints)[3 + 2 * i] == ""
      && PromptLines(options, constraints)[4 + 2 * i] == OptionLine(i + 1, options[i])
  {
    var head, loop, close := [Intro, "", OptionsOpen], LoopLines(Enumerated(options)), ["", OptionsClose, ""];
    var upper := UpperLines(options);
    var lines := PromptLines(options, constraints);
    assert lines == upper + (ConstraintSectionLines(constraints) + ([""] + InstructionLines));
    assert upper == head + loop + close;
    forall i | 0 <= i < |options|
      ensures lines[3 + 2 * i] == ""
      ensures lines[4 + 2 * i] == OptionLine(i + 1, options[i])
    {
      MiddleIndex(head, loop, close, 2 * i);
      MiddleIndex(head, loop, close, 2 * i + 1);
      assert loop[2 * i + 1] == Enumerated(options)[i];
    }
    MiddleIndex(head + loop, close, [], 0);
    MiddleIndex(head + loop, close, [], 1);
    assert upper + [] == upper;
  }

  /** With constraints, the lines after `</options>` and a blank line are: a
      blank line, the "Restrict ..." line, `<constraints>`, then for each
      constraint in order a blank line and `- constraint`, then a blank line and
      `</constraints>`. */
  lemma {:induction false} ConstraintsListed(options: seq<string>, constraints: Option<seq<string>>)
    requires HasConstraints(constraints)
    ensures |PromptLines(options, constraints)| > 10 + 2 * |options| + 2 * |constraints.value|
    ensures PromptLines(options, constraints)[7 + 2 * |options|] == RestrictLine
    ensures PromptLines(options, constraints)[8 + 2 * |options|] == ConstraintsOpen
    ensures PromptLines(options, constraints)[9 + 2 * |options| + 2 * |constraints.value|] == ""
    ensures PromptLines(options, constraints)[10 + 2 * |options| + 2 * |constraints.value|] == ConstraintsClose
    ensures forall j | 0 <= j < |constraints.value| ::
      && PromptLines(options, constraints)[9 + 2 * |options| + 2 * j] == ""
      && PromptLines(options, constraints)[10 + 2 * |options| + 2 * j] == BulletLine(constraints.value[j])
  {
    var upper, section, tail := UpperLines(options), ConstraintSectionLines(constraints), [""] + InstructionLines;
    var open, loop, close := ["", RestrictLine, ConstraintsOpen], LoopLines(Bulleted(constraints.value)), ["", ConstraintsClose, ""];
    var lines := PromptLines(options, constraints);
    assert |upper| == 6 + 2 * |options|;
    assert section == open + loop + close;
    MiddleIndex(upper, section, tail, 1);
    MiddleIndex(upper, section, tail, 2);
    MiddleIndex(upper, section, tail, 3 + |loop|);
    MiddleIndex(upper, section, tail, 4 + |loop|);
    MiddleIndex(open, loop, close, 1) by {
      assert (open + loop + close)[4 + |loop|] == (open + loop + close)[|open| + |loop| + 1];
    }
    MiddleIndex(open + loop, close, [], 0);
    MiddleIndex(open + loop, close, [], 1);
    assert section + [] == section;
    forall j | 0 <= j < |constraints.value|
      ensures lines[9 + 2 * |options| + 2 * j] == ""
      ensures lines[10 + 2 * |options| + 2 * j] == BulletLine(constraints.value[j])
    {
      MiddleIndex(upper, section, tail, 3 + 2 * j);
      MiddleIndex(upper, section, tail, 4 + 2 * j);
      MiddleIndex(open, loop, close, 2 * j);
      MiddleIndex(open, loop, close, 2 * j + 1);
      assert loop[2 * j + 1] == Bulleted(constraints.value)[j];
    }
  }


  /** Whatever the options and constraints, the prompt's lines end with the
      fixed instruction lines, so its closing "Constraints:" heading says
      nothing about whether a constraints block is present. */
  lemma {:induction false} InstructionsAlwaysLast(options: seq<string>, constraints: Option<seq<string>>)
    ensures var lines := PromptLines(options, constraints);
      && |lines| > |InstructionLines|
      && lines[|lines| - |InstructionLines|..] == InstructionLines
      && lines[|lines| - 2] == "Constraints:"
  {
    var lines := PromptLines(options, constraints);
    var front := UpperLines(options) + ConstraintSectionLines(constraints) + [""];
    assert lines == front + InstructionLines;
  }

  /** Every line the options block can hold is blank or starts with a digit. */
  lemma OptionLinesShape(options: seq<string>)
    ensures forall l <- LoopLines(Enumerated(options)) :: l == "" || IsDigit(l[0])
  {
    var loop := LoopLines(Enumerated(options));
    forall l <- loop ensures l == "" || IsDigit(l[0]) {
      var k :| 0 <= k < |loop| && loop[k] == l;
      if k % 2 == 1 {
        var i := k / 2;
        assert loop[2 * i + 1] == Enumerated(options)[i];
        assert l == NatToString(i + 1) + ". " + options[i];
      } else {
        assert loop[2 * (k / 2)] == "";
      }
    }
  }

  /** The line is not one of the fixed lines of a prompt, nor blank, nor a
      numbered option line. */
  predicate ForeignLine(l: string) {
    && l != "" && !IsDigit(l[0])
    && l != Intro && l != OptionsOpen && l != OptionsClose
    && l !in InstructionLines
  }

  lemma RestrictLineForeign()
    ensures ForeignLine(RestrictLine)
  {
    assert RestrictLine[0] == 'R';
  }

  lemma ConstraintsOpenForeign()
    ensures ForeignLine(ConstraintsOpen)
  {
    assert ConstraintsOpen[0] == '<';
  }

  lemma ConstraintsCloseForeign()
    ensures ForeignLine(ConstraintsClose)
  {
    assert ConstraintsClose[0] == '<';
  }

  lemma {:induction false} ForeignNotInOptionsPrompt(options: seq<string>, constraints: Option<seq<string>>, l: string)
    requires !HasConstraints(constraints)
    requires ForeignLine(l)
    ensures l !in PromptLines(options, constraints)
  {
    OptionLinesShape(options);
    assert l !in LoopLines(Enumerated(options));
    assert l !in UpperLines(options);
    assert l !in ConstraintSectionLines(constraints) + ([""] + InstructionLines);
  }

  /** The constraints block (its "Restrict ..." line and both tags) is present
      exactly when the constraints list is non-empty; `None` and `[]` omit it
      alike. The fixed text's own "Constraints:" heading is not part of it. */
  lemma {:induction false} ConstraintsBlockIff(options: seq<string>, constraints: Option<seq<string>>)
    ensures var lines := PromptLines(options, constraints);
      && (RestrictLine in lines <==> HasConstraints(constraints))
      && (ConstraintsOpen in lines <==> HasConstraints(constraints))
      && (ConstraintsClose in lines <==> HasConstraints(constraints))
  {
    var lines := PromptLines(options, constraints);
    if HasConstraints(constraints) {
      ConstraintsListed(options, constraints);
      var n := |constraints.value|;
      assert lines[7 + 2 * |options|] in lines && lines[8 + 2 * |options|] in lines;
      assert lines[10 + 2 * |options| + 2 * n] in lines;
    } else {
      RestrictLineForeign();
      ConstraintsOpenForeign();
      ConstraintsCloseForeign();
      ForeignNotInOptionsPrompt(options, constraints, RestrictLine);
      ForeignNotInOptionsPrompt(options, constraints, ConstraintsOpen);
      ForeignNotInOptionsPrompt(options, constraints, ConstraintsClose);
    }
  }

  /** An entry of the prompt's lines that holds no break is a line of the
      rendered text. */
  lemma RenderedHasLine(options: seq<string>, constraints: Option<seq<string>>, k: nat)
    requires k < |PromptLines(options, constraints)|
    requires '\n' !in PromptLines(options, constraints)[k]
    ensures HasLine(RenderPrompt(options, constraints), PromptLines(options, constraints)[k])
  {
    RenderPromptLines(options, constraints);
    JoinHasLine(PromptLines(options, constraints), k);
  }

  /** A break-free text standing at index `k` of the prompt's lines is a
      line of the rendered text. */
  lemma RenderedLineOf(options: seq<string>, constraints: Option<seq<string>>, k: nat, line: string)
    requires k < |PromptLines(options, constraints)| && PromptLines(options, constraints)[k] == line
    requires '\n' !in line
    ensures HasLine(RenderPrompt(options, constraints), line)
  {
    RenderedHasLine(options, constraints, k);
  }

  /** Option `i` (from 1) is the line `i. option` of the rendered text when
      the option holds no line break. */
  lemma RenderedOptionLine(options: seq<string>, constraints: Option<seq<string>>, i: nat)
    requires i < |options| && '\n' !in options[i]
    ensures HasLine(RenderPrompt(options, constraints), OptionLine(i + 1, options[i]))
  {
    OptionsListed(options, constraints);
    NoBreakInOptionLine(i + 1, options[i]);
    RenderedHasLine(options, constraints, 4 + 2 * i);
  }

  /** Where the two constraint tags stand among the prompt's lines. */
  lemma ConstraintTagIndices(options: seq<string>, constraints: Option<seq<string>>)
    requires HasConstraints(constraints)
    ensures |PromptLines(options, constraints)| > 10 + 2 * |options| + 2 * |constraints.value|
    ensures PromptLines(options, constraints)[8 + 2 * |options|] == ConstraintsOpen
    ensures PromptLines(options, constraints)[10 + 2 * |options| + 2 * |constraints.value|] == ConstraintsClose
  {
    ConstraintsListed(options, constraints);
  }

  lemma TagsBreakFree()
    ensures '\n' !in ConstraintsOpen && '\n' !in ConstraintsClose
  {
  }

  lemma RenderedConstraintsOpen(options: seq<string>, constraints: Option<seq<string>>)
    requires HasConstraints(constraints)
    ensures HasLine(RenderPrompt(options, constraints), ConstraintsOpen)
  {
    ConstraintTagIndices(options, constraints);
    TagsBreakFree();
    RenderedHasLine(options, constraints, 8 + 2 * |options|);
  }

  lemma RenderedConstraintsClose(options: seq<string>, constraints: Option<seq<string>>)
    requires HasConstraints(constraints)
    ensures HasLine(RenderPrompt(options, constraints), ConstraintsClose)
  {
    var k := 10 + 2 * |options| + 2 * |constraints.value|;
    ConstraintTagIndices(options, constraints);
    TagsBreakFree();
    RenderedLineOf(options, constraints, k, ConstraintsClose);
  }

  /** With constraints, `<constraints>` and `</constraints>` are lines of the
      rendered text. */
  lemma RenderedConstraintTags(options: seq<string>, constraints: Option<seq<string>>)
    requires HasConstraints(constraints)
    ensures HasLine(RenderPrompt(options, constraints), ConstraintsOpen)
    ensures HasLine(RenderPrompt(options, constraints), ConstraintsClose)
  {
    RenderedConstraintsOpen(options, constraints);
    RenderedConstraintsClose(options, constraints);
  }

  /** With constraints, constraint `j` is the line `- constraint` of the
      rendered text when it holds no line break. */
  lemma RenderedBulletLine(options: seq<string>, constraints: Option<seq<string>>, j: nat)
    requires HasConstraints(constraints)
    requires j < |constraints.value| && '\n' !in constraints.value[j]
    ensures HasLine(RenderPrompt(options, constraints), BulletLine(constraints.value[j]))
  {
    var k := 10 + 2 * |options| + 2 * j;
    ConstraintsListed(options, constraints);
    assert '\n' !in BulletLine(constraints.value[j]) by {
      assert BulletLine(constraints.value[j]) == "- " + constraints.value[j];
    }
    RenderedLineOf(options, constraints, k, BulletLine(constraints.value[j]));
  }

  lemma NoBreakInOptionLine(index: nat, option: string)
    requires '\n' !in option
    ensures '\n' !in OptionLine(index, option)
  {
    NatToStringSingleLine(index);
  }

  /** `RenderedOptionLine` for two options, at the fixed line numbers 1 and
      2. Calling the general lemma at indices 0 and 1 leaves the verifier to
      match `OptionLine(0 + 1, _)` against `OptionLine(1, _)`, which makes it
      unfold the decimal conversion; the fixed indices avoid that. */
  lemma TwoOptionLines(options: seq<string>, constraints: Option<seq<string>>)
    requires |options| == 2 && '\n' !in options[0] && '\n' !in options[1]
    ensures HasLine(RenderPrompt(options, constraints), OptionLine(1, options[0]))
    ensures HasLine(RenderPrompt(options, constraints), OptionLine(2, options[1]))
  {
    OptionsListed(options, constraints);
    NoBreakInOptionLine(1, options[0]);
    NoBreakInOptionLine(2, options[1]);
    RenderedHasLine(options, constraints, 4);
    RenderedHasLine(options, constraints, 6);
  }

  /** `RenderedBulletLine` for the first constraint, so that the example with
      literal constraints only meets the general lemma through symbolic ones. */
  lemma FirstBulletLine(options: seq<string>, constraints: Option<seq<string>>)
    requires HasConstraints(constraints) && '\n' !in constraints.value[0]
    ensures HasLine(RenderPrompt(options, constraints), BulletLine(constraints.value[0]))
  {
    RenderedBulletLine(options, constraints, 0);
  }

  /** Rewrites a line given by an expression into the equal literal. It is a
      lemma of its own so that the literal never meets the recursive
      definitions behind `a`, which the verifier would otherwise unfold on it. */
  lemma SameLine(s: string, a: string, b: string)
    requires HasLine(s, a) && a == b
    ensures HasLine(s, b)
  {
  }

  lemma OptionExampleTexts(options: seq<string>)
    requires options == ["Python", "JavaScript"]
    ensures OptionLine(1, options[0]) == "1. Python"
    ensures OptionLine(2, options[1]) == "2. JavaScript"
    ensures '\n' !in options[0] && '\n' !in options[1]
  {
    assert NatToString(1) == "1" && NatToString(2) == "2";
  }

  lemma BulletExampleText(constraints: Option<seq<string>>)
    requires constraints == Some(["Cost"])
    ensures BulletLine(constraints.value[0]) == "- Cost"
    ensures '\n' !in constraints.value[0]
  {
  }

  /** Rendering the options "Python" and "JavaScript", with or without
      constraints, numbers them as the lines "1. Python" and "2. JavaScript". */
  lemma PythonJavaScriptExample(options: seq<string>, constraints: Option<seq<string>>)
    requires options == ["Python", "JavaScript"]
    ensures HasLine(RenderPrompt(options, constraints), "1. Python")
    ensures HasLine(RenderPrompt(options, constraints), "2. JavaScript")
  {
    OptionExampleTexts(options);
    TwoOptionLines(options, constraints);
    var prompt := RenderPrompt(options, constraints);
    SameLine(prompt, OptionLine(1, options[0]), "1. Python");
    SameLine(prompt, OptionLine(2, options[1]), "2. JavaScript");
  }

  /** The same rendering opens a constraints block holding the line "- Cost". */
  lemma CostConstraintExample(options: seq<string>, constraints: Option<seq<string>>)
    requires options == ["Python", "JavaScript"] && constraints == Some(["Cost"])
    ensures HasLine(RenderPrompt(options, constraints), "- Cost")
    ensures HasLine(RenderPrompt(options, constraints), ConstraintsOpen)
  {
    BulletExampleText(constraints);
    FirstBulletLine(options, constraints);
    RenderedConstraintTags(options, constraints);
    SameLine(RenderPrompt(options, constraints), BulletLine(constraints.value[0]), "- Cost");
  }
}

=== FILE: text.dfy ===
/** The Python string operations the workflow relies on: `str.strip()`,
    `str.split(sep)`, `sep.join(parts)` and `str(n)` for a non-negative int. */
module Text {

  // ---------------------------------------------------------------------------
  // Whitespace and str.strip()
  // ---------------------------------------------------------------------------

  /** Python's `str.isspace()` for one character: the characters that
      `str.strip()` with no argument removes. */
  predicate IsSpace(c: char) {
    || ('\t' <= c <= '\r')                      // \t \n \v \f \r
    || ('\U{1C}' <= c <= '\U{1F}')              // file, group, record, unit separators
    || c == ' ' || c == '\U{85}' || c == '\U{A0}' || c == '\U{1680}'
    || ('\U{2000}' <= c <= '\U{200A}')
    || c == '\U{2028}' || c == '\U{2029}' || c == '\U{202F}' || c == '\U{205F}' || c == '\U{3000}'
  }

  predicate AllSpace(s: string) {
    forall k | 0 <= k < |s| :: IsSpace(s[k])
  }

  /** Neither end of `s` is whitespace: what `str.strip()` always returns. */
  predicate IsStripped(s: string) {
    s == [] || (!IsSpace(s[0]) && !IsSpace(s[|s| - 1]))
  }

  /** `r` sits in `s` at offset `i` with only whitespace around it. */
  predicate PaddedAt(s: string, r: string, i: int) {
    && 0 <= i <= |s| - |r|
    && s[i..i + |r|] == r
    && AllSpace(s[..i])
    && AllSpace(s[i + |r|..])
  }

  /** `r` is `s` with its leading and trailing whitespace removed, and nothing else. */
  ghost predicate StripsTo(s: string, r: string) {
    IsStripped(r) && exists i :: PaddedAt(s, r, i)
  }

  function StripLeft(s: string): (r: string)
    ensures |r| <= |s|
    ensures r == [] || !IsSpace(r[0])
  {
    if |s| > 0 && IsSpace(s[0]) then StripLeft(s[1..]) else s
  }

  /** `StripLeft` removes a whitespace prefix and nothing else. */
  lemma {:induction false} StripLeftSpec(s: string)
    ensures StripLeft(s) == s[|s| - |StripLeft(s)|..]
    ensures AllSpace(s[..|s| - |StripLeft(s)|])
    decreases |s|
  {
    if |s| > 0 && IsSpace(s[0]) {
      var r := StripLeft(s[1..]);
      StripLeftSpec(s[1..]);
      assert s[..|s| - |r|] == [s[0]] + s[1..][..|s| - 1 - |r|];
    }
  }

  function StripRight(s: string): (r: string)
    ensures |r| <= |s|
    ensures r == [] || !IsSpace(r[|r| - 1])
  {
    if |s| > 0 && IsSpace(s[|s| - 1]) then StripRight(s[..|s| - 1]) else s
  }

  /** `StripRight` removes a whitespace suffix and nothing else. */
  lemma {:induction false} StripRightSpec(s: string)
    ensures StripRight(s) == s[..|StripRight(s)|]
    ensures AllSpace(s[|StripRight(s)|..])
    decreases |s|
  {
    if |s| > 0 && IsSpace(s[|s| - 1]) {
      var r := StripRight(s[..|s| - 1]);
      StripRightSpec(s[..|s| - 1]);
      assert s[|r|..] == s[..|s| - 1][|r|..] + [s[|s| - 1]];
    }
  }

  /** Python's `s.strip()`. `StripSpec` states what it removes. */
  function Strip(s: string): (r: string)
    ensures IsStripped(r) && |r| <= |s|
  {
    var l := StripLeft(s);
    StripRightSpec(l);
    StripRight(l)
  }

  /** `Strip(s)` is `s` with its leading and trailing whitespace removed. */
  lemma StripSpec(s: string)
    ensures StripsTo(s, Strip(s))
  {
    var l := StripLeft(s);
    var r := StripRight(l);
    StripLeftSpec(s);
    StripRightSpec(l);
    var i := |s| - |l|;
    assert s[i..i + |r|] == r;
    assert s[i + |r|..] == l[|r|..];
    assert PaddedAt(s, r, i);
  }

  /** Removing whitespace-only `p` in front of a string that does not start
      with whitespace leaves that string. */
  lemma {:induction false} StripLeftOf(p: string, t: string)
    requires AllSpace(p)
    requires t == [] || !IsSpace(t[0])
    ensures StripLeft(p + t) == t
  {
    if |p| == 0 {
      assert p + t == t;
    } else {
      assert (p + t)[0] == p[0];
      assert (p + t)[1..] == p[1..] + t;
      assert AllSpace(p[1..]) by {
        forall k | 0 <= k < |p[1..]| ensures IsSpace(p[1..][k]) {
          assert p[1..][k] == p[k + 1];
        }
      }
      StripLeftOf(p[1..], t);
    }
  }

  /** Removing whitespace-only `q` behind a string that does not end with
      whitespace leaves that string. */
  lemma {:induction false} StripRightOf(t: string, q: string)
    requires AllSpace(q)
    requires t == [] || !IsSpace(t[|t| - 1])
    ensures StripRight(t + q) == t
  {
    if |q| == 0 {
      assert t + q == t;
    } else {
      var tq := t + q;
      assert tq[|tq| - 1] == q[|q| - 1];
      assert tq[..|tq| - 1] == t + q[..|q| - 1];
      var front := q[..|q| - 1];
      assert AllSpace(front) by {
        forall k | 0 <= k < |front| ensures IsSpace(front[k]) {
          assert front[k] == q[k];
        }
      }
      StripRightOf(t, front);
    }
  }

  /** Whitespace added around a stripped string is exactly what `Strip` removes. */
  lemma StripOfPadded(p: string, r: string, q: string)
    requires AllSpace(p) && AllSpace(q) && IsStripped(r)
    ensures Strip(p + r + q) == r
  {
    if r == [] {
      var s := p + r + q;
      assert AllSpace(s) by {
        forall k | 0 <= k < |s| ensures IsSpace(s[k]) {
          if k < |p| { assert s[k] == p[k]; } else { assert s[k] == q[k - |p|]; }
        }
      }
      assert s + [] == s;
      StripLeftOf(s, []);
    } else {
      assert p + r + q == p + (r + q);
      StripLeftOf(p, r + q);
      StripRightOf(r, q);
    }
  }

  /** `Strip` is exactly Python's `str.strip()`: `Strip(s)` is the one string
      obtained from `s` by removing leading and trailing whitespace. */
  lemma StripCharacterization(s: string, r: string)
    ensures Strip(s) == r <==> StripsTo(s, r)
  {
    StripSpec(s);
    if StripsTo(s, r) {
      var i :| PaddedAt(s, r, i);
      assert s == s[..i] + r + s[i + |r|..];
      StripOfPadded(s[..i], r, s[i + |r|..]);
    }
  }

  /** Stripping adds no character. */
  lemma StripKeepsOut(s: string, x: char)
    requires x !in s
    ensures x !in Strip(s)
  {
    var r := Strip(s);
    StripSpec(s);
    var i :| PaddedAt(s, r, i);
    forall k | 0 <= k < |r| ensures r[k] != x {
      assert r[k] == s[i + k];
    }
  }

  /** Stripping a string that has no outer whitespace changes nothing. */
  lemma StripStripped(s: string)
    requires IsStripped(s)
    ensures Strip(s) == s
  {
    assert s == [] + s + [];
    StripOfPadded([], s, []);
  }

  // ---------------------------------------------------------------------------
  // sep.join(parts) and str.split(sep)
  // ---------------------------------------------------------------------------

  /** Python's `sep.join(parts)`. */
  function Join(parts: seq<string>, sep: string): string {
    if |parts| == 0 then []
    else if |parts| == 1 then parts[0]
    else parts[0] + sep + Join(parts[1..], sep)
  }

  /** Joining two non-empty lists puts exactly one separator between them. */
  lemma {:induction false} JoinAppend(a: seq<string>, b: seq<string>, sep: string)
    requires |a| > 0 && |b| > 0
    ensures Join(a + b, sep) == Join(a, sep) + sep + Join(b, sep)
  {
    if |a| == 1 {
      assert a + b == [a[0]] + b;
      assert (a + b)[1..] == b;
    } else {
      assert (a + b)[1..] == a[1..] + b;
      JoinAppend(a[1..], b, sep);
    }
  }

  /** The join of a non-empty list ends with its last entry. */
  lemma {:induction false} JoinSplitLast(parts: seq<string>, sep: string)
    requires |parts| > 0
    ensures |parts| == 1 ==> Join(parts, sep) == parts[0]
    ensures |parts| > 1 ==>
      Join(parts, sep) == Join(parts[..|parts| - 1], sep) + sep + parts[|parts| - 1]
  {
    if |parts| > 1 {
      assert parts == parts[..|parts| - 1] + [parts[|parts| - 1]];
      JoinAppend(parts[..|parts| - 1], [parts[|parts| - 1]], sep);
    }
  }

  /** A list whose first entry is non-empty joins to a non-empty text. */
  lemma JoinNonEmpty(parts: seq<string>, sep: string)
    requires |parts| > 0 && parts[0] != []
    ensures Join(parts, sep) != []
  {
  }

  lemma JoinTwo(a: string, b: string, sep: string)
    ensures Join([a, b], sep) == a + sep + b
  {
    assert [a, b][1..] == [b];
  }

  lemma JoinThree(a: string, b: string, c: string, sep: string)
    ensures Join([a, b, c], sep) == a + sep + b + sep + c
  {
    assert [a, b, c][1..] == [b, c];
    JoinTwo(b, c, sep);
  }

  /** `line` occurs in `s` at offset `i` between line breaks or the ends of `s`. */
  predicate LineAt(s: string, line: string, i: int) {
    && 0 <= i <= |s| - |line|
    && s[i..i + |line|] == line
    && (i == 0 || s[i - 1] == '\n')
    && (i + |line| == |s| || s[i + |line|] == '\n')
  }

  /** `line` is one whole line of `s`: it holds no line break and stands
      between line breaks or the ends of `s`. */
  ghost predicate HasLine(s: string, line: string) {
    '\n' !in line && exists i :: LineAt(s, line, i)
  }

  lemma LineBetween(before: string, line: string, after: string)
    requires before == [] || before[|before| - 1] == '\n'
    requires after == [] || after[0] == '\n'
    ensures LineAt(before + line + after, line, |before|)
  {
    var s := before + line + after;
    assert s[|before|..|before| + |line|] == line;
    if before != [] {
      assert s[|before| - 1] == before[|before| - 1];
    }
    if after != [] {
      assert s[|before| + |line|] == after[0];
    }
  }

  /** The join of a list starts with its first entry, then a break unless
      that entry is the last. */
  lemma JoinFirst(lines: seq<string>)
    requires |lines| > 1
    ensures Join(lines, "\n") == lines[0] + ("\n" + Join(lines[1..], "\n"))
  {
  }

  /** The join of a non-empty list is its first entry followed by nothing
      or by a line break and the rest. */
  lemma JoinHead(lines: seq<string>) returns (after: string)
    requires |lines| > 0
    ensures Join(lines, "\n") == lines[0] + after
    ensures after == [] || after[0] == '\n'
  {
    if |lines| > 1 {
      JoinFirst(lines);
      after := "\n" + Join(lines[1..], "\n");
    } else {
      after := [];
      assert lines[0] + after == lines[0];
    }
  }

  /** Entry `k` of a list stands in the join between a text ending with a
      break (or nothing) and a text starting with one (or nothing). */
  lemma JoinAround(lines: seq<string>, k: nat) returns (before: string, after: string)
    requires k < |lines|
    ensures Join(lines, "\n") == before + lines[k] + after
    ensures before == [] || before[|before| - 1] == '\n'
    ensures after == [] || after[0] == '\n'
  {
    var rest := lines[k..];
    after := JoinHead(rest);
    if k == 0 {
      before := [];
      assert lines == rest;
      assert before + lines[k] + after == lines[k] + after;
    } else {
      var front := Join(lines[..k], "\n");
      before := front + "\n";
      assert lines == lines[..k] + rest;
      JoinAppend(lines[..k], rest, "\n");
      assert Join(lines, "\n") == front + "\n" + (lines[k] + after);
      assert front + "\n" + (lines[k] + after) == before + lines[k] + after;
    }
  }

  /** Every break-free entry of a list of lines is a line of their join. */
  lemma JoinHasLine(lines: seq<string>, k: nat)
    requires k < |lines| && '\n' !in lines[k]
    ensures HasLine(Join(lines, "\n"), lines[k])
  {
    var before, after := JoinAround(lines, k);
    LineBetween(before, lines[k], after);
  }

  /** Python's `s.split(sep)` for a one-character separator: the pieces between
      separators, so that there is always one more piece than separators. */
  function Split(s: string, sep: char): (parts: seq<string>)
    ensures |parts| >= 1
    ensures forall p <- parts :: sep !in p
    ensures Join(parts, [sep]) == s
  {
    if |s| == 0 then [[]]
    else
      var rest := Split(s[1..], sep);
      if s[0] == sep then
        assert s == [sep] + s[1..];
        [[]] + rest
      else
        var parts := [[s[0]] + rest[0]] + rest[1..];
        assert parts[1..] == rest[1..];
        assert s == [s[0]] + s[1..];
        parts
  }

  /** Splitting at one separator splits the two sides independently. */
  lemma {:induction false} SplitAppend(a: string, b: string, sep: char)
    ensures Split(a + [sep] + b, sep) == Split(a, sep) + Split(b, sep)
  {
    if |a| == 0 {
      assert a + [sep] + b == [sep] + b;
      assert ([sep] + b)[1..] == b;
    } else {
      assert (a + [sep] + b)[1..] == a[1..] + [sep] + b;
      SplitAppend(a[1..], b, sep);
    }
  }

  /** A string without the separator is one piece. */
  lemma {:induction false} SplitNoSeparator(s: string, sep: char)
    requires sep !in s
    ensures Split(s, sep) == [s]
  {
    if |s| > 0 {
      assert sep !in s[1..] by {
        forall k | 0 <= k < |s[1..]| ensures s[1..][k] != sep {
          assert s[1..][k] == s[k + 1];
        }
      }
      SplitNoSeparator(s[1..], sep);
      assert s == [s[0]] + s[1..];
    }
  }

  /** `split` undoes `join` when no part contains the separator. */
  lemma {:induction false} SplitJoin(parts: seq<string>, sep: char)
    requires |parts| >= 1
    requires forall p <- parts :: sep !in p
    ensures Split(Join(parts, [sep]), sep) == parts
  {
    if |parts| == 1 {
      SplitNoSeparator(parts[0], sep);
    } else {
      assert parts[0] in parts;
      assert forall p <- parts[1..] :: p in parts;
      SplitJoin(parts[1..], sep);
      SplitAppend(parts[0], Join(parts[1..], [sep]), sep);
      SplitNoSeparator(parts[0], sep);
      assert parts == [parts[0]] + parts[1..];
    }
  }

  // ---------------------------------------------------------------------------
  // str(n) for a non-negative int
  // ---------------------------------------------------------------------------

  predicate IsDigit(c: char) {
    '0' <= c <= '9'
  }

  function DigitChar(d: nat): (c: char)
    requires d < 10
  {
    ('0' as int + d) as char
  }

  /** Python's `str(n)` for `n >= 0`: decimal digits, no sign, no leading zero. */
  function NatToString(n: nat): (r: string)
    ensures |r| >= 1
    ensures forall k | 0 <= k < |r| :: IsDigit(r[k])
    ensures r[0] == '0' <==> n == 0
  {
    if n < 10 then [DigitChar(n)] else NatToString(n / 10) + [DigitChar(n % 10)]
  }

  /** A decimal string holds no line break, so a numbered line stays one line. */
  lemma NatToStringSingleLine(n: nat)
    ensures '\n' !in NatToString(n)
  {
    var digits := NatToString(n);
    forall k | 0 <= k < |digits| ensures digits[k] != '\n' {
      assert IsDigit(digits[k]);
    }
  }

  /** The value of a string of decimal digits. */
  function DecimalValue(s: string): nat
    requires forall k | 0 <= k < |s| :: IsDigit(s[k])
  {
    if |s| == 0 then 0
    else
      assert IsDigit(s[|s| - 1]);
      DecimalValue(s[..|s| - 1]) * 10 + (s[|s| - 1] as int - '0' as int)
  }

  /** Reading back the decimal form gives the number: no two indices print alike. */
  lemma {:induction false} DecimalRoundTrip(n: nat)
    ensures DecimalValue(NatToString(n)) == n
  {
    if n >= 10 {
      var s := NatToString(n);
      assert s[..|s| - 1] == NatToString(n / 10);
      DecimalRoundTrip(n / 10);
    }
  }

  lemma NatToStringInjective(m: nat, n: nat)
    requires NatToString(m) == NatToString(n)
    ensures m == n
  {
    DecimalRoundTrip(m);
    DecimalRoundTrip(n);
  }
}

=== FILE: workflow.dfy ===
/** The comparison pipeline of `ComparisonWorkflow` (comparison_workflow.py):
    render the request, ask the language model for a search query, search
    the web, aggregate the hits, ask the language model for the report.
    The language model and the search engine are parameters. */
module Workflow {
  import opened Wrappers
  import opened Text
  import opened Prompts
  import opened SearchContext
  import opened PromptTemplate

  /** Sampling temperature for the search-query request. */
  const QueryTemperature: real := 0.0
  /** Sampling temperature for the report request. */
  const ReportTemperature: real := 0.4
  /** Search depth requested from the search engine. */
  const SearchDepth: string := "advanced"
  /** Hits requested by `run_comparison`. */
  const DefaultMaxResults: nat := 5

  /** A chat completion: the messages and the temperature give the text of
      the first choice, or the error the client raised. */
  type Completion = (seq<Message>, real) -> Result<string>

  datatype SearchRequest = SearchRequest(query: string, depth: string, maxResults: nat)

  /** The search engine's reply; `results` is `None` when the reply has no
      "results" key. */
  datatype SearchResponse = SearchResponse(results: Option<seq<SearchRecord>>)

  type WebSearch = SearchRequest -> Result<SearchResponse>

  /** The four entries of the dictionary `run_comparison` returns. */
  datatype ComparisonResult = ComparisonResult(
    originalQuery: string,
    searchQuery: string,
    searchContext: string,
    comparisonReport: string)

  /** `response.get("results", [])`. */
  function ResultsOf(response: SearchResponse): seq<SearchRecord> {
    if response.results.Some? then response.results.value else []
  }

  // ---------------------------------------------------------------------------
  // The steps
  // ---------------------------------------------------------------------------

  /** Ask for a search query at temperature 0 and strip the answer. A client
      error is passed on unchanged. */
  function GenerateSearchQuery(llm: Completion, userQuery: string): (r: Result<string>)
    ensures var reply := llm(SearchQueryMessages(userQuery), QueryTemperature);
      && (r.Ok? <==> reply.Ok?)
      && (r.Ok? ==> StripsTo(reply.value, r.value))
      && (r.Err? ==> r.error == reply.error)
  {
    var raw :- llm(SearchQueryMessages(userQuery), QueryTemperature);
    StripSpec(raw);
    Ok(Strip(raw))
  }

  /** Search at depth "advanced" for at most `maxResults` hits; a reply without
      a results list gives no hits. */
  function PerformWebSearch(search: WebSearch, query: string, maxResults: nat): (r: Result<seq<SearchRecord>>)
    ensures var reply := search(SearchRequest(query, SearchDepth, maxResults));
      && (r.Ok? <==> reply.Ok?)
      && (r.Err? ==> r.error == reply.error)
      && (r.Ok? && reply.value.results.None? ==> r.value == [])
      && (r.Ok? && reply.value.results.Some? ==> r.value == reply.value.results.value)
  {
    var response :- search(SearchRequest(query, SearchDepth, maxResults));
    Ok(ResultsOf(response))
  }

  /** Ask for the report at temperature 0.4 and strip the answer. */
  function GenerateComparisonReport(llm: Completion, userQuery: string, searchContext: string): (r: Result<string>)
    ensures var reply := llm(ComparisonMessages(userQuery, searchContext), ReportTemperature);
      && (r.Ok? <==> reply.Ok?)
      && (r.Ok? ==> StripsTo(reply.value, r.value))
      && (r.Err? ==> r.error == reply.error)
  {
    var raw :- llm(ComparisonMessages(userQuery, searchContext), ReportTemperature);
    StripSpec(raw);
    Ok(Strip(raw))
  }

  /** A search reply without a results list gives no hits, and so an empty
      web context. */
  lemma MissingResultsEmptyContext(search: WebSearch, query: string, maxResults: nat)
    requires search(SearchRequest(query, SearchDepth, maxResults)) == Ok(SearchResponse(None))
    ensures PerformWebSearch(search, query, maxResults) == Ok([])
    ensures AggregateSearchContext(PerformWebSearch(search, query, maxResults).value) == ""
  {
  }

  // ---------------------------------------------------------------------------
  // The pipeline
  // ---------------------------------------------------------------------------

  /** `result` is what a successful run on the rendered request reports: the
      request itself, the stripped query the model gave for it, the
      aggregated hits of searching for that query, and the stripped report the
      model gave for the request and that context. */
  ghost predicate FlowsFrom(llm: Completion, search: WebSearch, request: string, result: ComparisonResult)
  {
    var queryReply := llm(SearchQueryMessages(request), QueryTemperature);
    var searchReply := search(SearchRequest(result.searchQuery, SearchDepth, DefaultMaxResults));
    var reportReply := llm(ComparisonMessages(request, result.searchContext), ReportTemperature);
    && result.originalQuery == request
    && queryReply.Ok? && StripsTo(queryReply.value, result.searchQuery)
    && searchReply.Ok? && result.searchContext == AggregateSearchContext(ResultsOf(searchReply.value))
    && reportReply.Ok? && StripsTo(reportReply.value, result.comparisonReport)
  }

  /** The error of the first step that fails on the rendered request, if any. */
  function FirstFailure(llm: Completion, search: WebSearch, request: string): Option<string>
  {
    var queryReply := llm(SearchQueryMessages(request), QueryTemperature);
    if queryReply.Err? then Some(queryReply.error)
    else
      var searchReply := search(SearchRequest(Strip(queryReply.value), SearchDepth, DefaultMaxResults));
      if searchReply.Err? then Some(searchReply.error)
      else
        var context := AggregateSearchContext(ResultsOf(searchReply.value));
        var reportReply := llm(ComparisonMessages(request, context), ReportTemperature);
        if reportReply.Err? then Some(reportReply.error) else None
  }

  /** Steps 1 to 4 of `run_comparison` on the rendered request. */
  function RunSteps(llm: Completion, search: WebSearch, userPrompt: string): (r: Result<ComparisonResult>)
    ensures r.Ok? ==> FlowsFrom(llm, search, userPrompt, r.value)
    ensures r.Err? <==> FirstFailure(llm, search, userPrompt).Some?
    ensures r.Err? ==> r.error == FirstFailure(llm, search, userPrompt).value
  {
    var searchQuery :- GenerateSearchQuery(llm, userPrompt);
    var results :- PerformWebSearch(search, searchQuery, DefaultMaxResults);
    var searchContext := AggregateSearchContext(results);
    var report :- GenerateComparisonReport(llm, userPrompt, searchContext);
    Ok(ComparisonResult(userPrompt, searchQuery, searchContext, report))
  }

  /** `run_comparison`: render the request, then a result only when every
      step succeeds, and then the one the steps determine; otherwise the
      error of the first failing step. */
  function RunComparison(llm: Completion, search: WebSearch,
                         options: seq<string>, constraints: Option<seq<string>>): (r: Result<ComparisonResult>)
    ensures r.Ok? ==> FlowsFrom(llm, search, RenderPrompt(options, constraints), r.value)
    ensures r.Err? <==> FirstFailure(llm, search, RenderPrompt(options, constraints)).Some?
    ensures r.Err? ==> r.error == FirstFailure(llm, search, RenderPrompt(options, constraints)).value
  {
    var userPrompt := RenderPrompt(options, constraints);
    RunSteps(llm, search, userPrompt)
  }

  /** A result that fits the data flow is the one the steps return: the flow
      leaves no freedom. */
  lemma FlowDeterminesResult(llm: Completion, search: WebSearch, request: string, result: ComparisonResult)
    requires FlowsFrom(llm, search, request, result)
    ensures RunSteps(llm, search, request) == Ok(result)
  {
    var queryReply := llm(SearchQueryMessages(request), QueryTemperature);
    StripCharacterization(queryReply.value, result.searchQuery);
    var reportReply := llm(ComparisonMessages(request, result.searchContext), ReportTemperature);
    StripCharacterization(reportReply.value, result.comparisonReport);
  }

  /** When the query request fails, the search engine is never consulted:
      swapping it changes nothing. */
  lemma QueryFailureSkipsSearch(llm: Completion, search1: WebSearch, search2: WebSearch,
                                options: seq<string>, constraints: Option<seq<string>>)
    requires llm(SearchQueryMessages(RenderPrompt(options, constraints)), QueryTemperature).Err?
    ensures RunComparison(llm, search1, options, constraints).Err?
    ensures RunComparison(llm, search1, options, constraints)
         == RunComparison(llm, search2, options, constraints)
  {
  }

  // ---------------------------------------------------------------------------
  // Scenarios
  // ---------------------------------------------------------------------------

  /** A model that answers the query request with a padded query and the
      report request with a padded "REPORT", and a search engine that returns one hit. */
  function PaddedQueryModel(): Completion {
    (messages: seq<Message>, temperature: real) =>
      if temperature == QueryTemperature then Ok("  python vs javascript performance\n") else Ok("\nREPORT\n")
  }

  function OneHitSearch(): WebSearch {
    (request: SearchRequest) => Ok(SearchResponse(Some([SearchRecord(Some("A"), Some("B"), Some("C"))])))
  }

  /** Under these stubs no step fails. */
  lemma StubsSucceed(options: seq<string>, constraints: Option<seq<string>>)
    ensures FirstFailure(PaddedQueryModel(), OneHitSearch(), RenderPrompt(options, constraints)).None?
  {
  }

  lemma PaddedQueryStrips(padded: string, query: string)
    requires padded == "  python vs javascript performance\n"
    requires query == "python vs javascript performance"
    ensures Strip(padded) == query
  {
    assert padded == "  " + query + "\n";
    StripOfPadded("  ", query, "\n");
  }

  lemma ReportStrips(padded: string, report: string)
    requires padded == "\nREPORT\n" && report == "REPORT"
    ensures Strip(padded) == report
  {
    assert padded == "\n" + report + "\n";
    StripOfPadded("\n", report, "\n");
  }

  lemma SuccessfulQuery(options: seq<string>, constraints: Option<seq<string>>)
    ensures var r := RunComparison(PaddedQueryModel(), OneHitSearch(), options, constraints);
      r.Ok? && r.value.searchQuery == "python vs javascript performance"
  {
    StubsSucceed(options, constraints);
    var result := RunComparison(PaddedQueryModel(), OneHitSearch(), options, constraints).value;
    PaddedQueryStrips("  python vs javascript performance\n", "python vs javascript performance");
    StripCharacterization("  python vs javascript performance\n", result.searchQuery);
  }

  lemma SuccessfulReport(options: seq<string>, constraints: Option<seq<string>>)
    ensures var r := RunComparison(PaddedQueryModel(), OneHitSearch(), options, constraints);
      r.Ok? && r.value.comparisonReport == "REPORT"
  {
    StubsSucceed(options, constraints);
    var result := RunComparison(PaddedQueryModel(), OneHitSearch(), options, constraints).value;
    ReportStrips("\nREPORT\n", "REPORT");
    StripCharacterization("\nREPORT\n", result.comparisonReport);
  }

  /** The successful run: the query comes back stripped, the context is the
      single hit's block, and the report is the model's answer. */
  lemma SuccessfulRunExample(options: seq<string>, constraints: Option<seq<string>>)
    ensures var r := RunComparison(PaddedQueryModel(), OneHitSearch(), options, constraints);
      && r.Ok?
      && r.value.originalQuery == RenderPrompt(options, constraints)
      && r.value.searchQuery == "python vs javascript performance"
      && r.value.searchContext == "Source 1: A\nB\nURL: C\n"
      && r.value.comparisonReport == "REPORT"
  {
    StubsSucceed(options, constraints);
    SuccessfulQuery(options, constraints);
    SuccessfulReport(options, constraints);
    SingleResultExample();
  }

  /** A search engine that always fails makes the whole run fail with its
      error, after the query request succeeded. */
  lemma SearchFailureExample(options: seq<string>, constraints: Option<seq<string>>)
    ensures RunComparison(PaddedQueryModel(), (request: SearchRequest) => Err("search unavailable"),
                          options, constraints)
         == Err("search unavailable")
  {
  }
}

=== FILE: wrappers.dfy ===
/** Failure-compatible wrappers shared by the whole model. */
module Wrappers {

  /** An optional value: an absent dictionary key, an absent command-line flag. */
  datatype Option<+T> = None | Some(value: T)

  /** The outcome of a step that may raise. `Err` carries the exception's text;
      it is propagated unchanged by `:-`, as an uncaught Python exception is. */
  datatype Result<+T> = Ok(value: T) | Err(error: string) {

    predicate IsFailure() {
      Err?
    }

    function PropagateFailure<U>(): Result<U>
      requires Err?
    {
      Err(error)
    }

    function Extract(): T
      requires Ok?
    {
      value
    }
  }
}
